=== FILE: README.md ===
# Agenda goal tracker — Dafny model of the statistics and month-store core

Agenda is a mobile app for monthly goals. Each goal has a title, a current
progress value and an aim. Goals belong to a month record, keyed by the
first day of that month written as `01.MM.yyyy`. A statistics screen shows
four numbers:

- the ratio of completed goals, rounded to one decimal;
- the number of completed goals;
- the number of uncompleted goals;
- the number of all goals.

This project models the parts of the app with precise logic:

- `DateKeys` (`date_keys.dfy`): how a formatted `dd.MM.yyyy` date becomes a month key. A small model of the `dd.MM.yyyy` format is included so that "same month and year" can be stated.
- `Store` (`store.dfy`): the persistence service. It holds a context of month records. It provides get-or-create of the current month, a listing of all months, and a save that only writes when something changed. Fetch and save failures are parameters.
- `GoalStatistics` (`goal_statistics.dfy`): counting completed, uncompleted and all goals over every month. It also rounds the completion ratio to whole tenths using integers only.
- `SummaryController` (`summary_controller.dfy`): the statistics screen that counts goals itself. It has four number slots, the counting loop with its early return, screen load, and the recount on a store change. Each row is built from four parallel arrays.
- `SummaryView` (`summary_view.dfy`): the statistics screen of the Summary module. It shows summaries supplied to it, picks them through a list of cell kinds, and asks for a re-fetch when the store changes.
- `AddGoal` (`add_goal.dfy`): the new-goal form. Its "Done" button is enabled exactly when the title, current and aim fields are all non-empty.
- `Entities` and `Wrappers`: the records (`Goal`, `Month`, `Summary`) and an `Option` type.

The code holds the on-screen numbers as `Double`s. They are modelled as
exact tenths, `Decimal(tenths)`, and the floating-point result of `0 / 0`
as `NaN`.

Some behaviour of the code is worth stating plainly:

- With no goals, slot 0 is NaN: `countGoals` divides 0 by 0 without a guard, and the model's `Percent` yields `NaN`.
- A rejected write in `saveContext` ends the process through `fatalError`. The model's `SaveContext` returns `Crashed`.
- A fetch that throws in `fetchCurrentMonth` or `fetchMonths` is swallowed with `try?` and treated as an empty result. It is not reported.
- The statistics screen keeps references to month records, not copies. A recount after a store change reads each record's goals as they are now. Months created after the screen was loaded are not in its list and are not counted.

## Model

| member | source | states |
|---|---|---|
| DateKeys.MonthKey | Agenda/Services/CoreDataManager.swift:47-49 | The key has the same length as the formatted date, begins with "01", and agrees with the date from index 2 on; dates shorter than two characters are excluded, as the range replacement faults on them |
| DateKeys.MonthKeyIdempotent | Agenda/Services/CoreDataManager.swift:44-49 | Normalising a key again gives the same key |
| DateKeys.MonthKeyEqualIff | Agenda/Services/CoreDataManager.swift:47-49 | Two formatted dates have the same key exactly when they agree after the day digits |
| DateKeys.Format | Agenda/Services/CoreDataManager.swift:46-48 | A date written as `dd.MM.yyyy` is ten characters with dots at positions 2 and 5 |
| DateKeys.SameMonthIffSameKey | Agenda/Services/CoreDataManager.swift:44-49 | Two dates give the same key if and only if they have the same month and year |
| DateKeys.KeyIsFirstDayOfMonth | Agenda/Services/CoreDataManager.swift:44-45 | The key of any date is the formatted first day of its month (27.03.2022 gives 01.03.2022) |
| Store.FetchByKey | Agenda/Services/CoreDataManager.swift:51-54 | The fetch for `date = key` returns months of the store, only those with that key, and every one with that key |
| Store.FetchByKeyFirst | Agenda/Services/CoreDataManager.swift:55-57 | The first fetched month is the first month in store order whose key matches |
| Store.FetchCurrentMonth | Agenda/Services/CoreDataManager.swift:42-64 | The returned month has today's key, and afterwards the store holds a month with that key. If the fetch succeeds and finds one, the first match is returned and the context is unchanged. Otherwise (nothing found, or the fetch threw) a new month with the key and no goals is appended and the context is marked changed |
| Store.SecondFetchAddsNothing | Agenda/Services/CoreDataManager.swift:54-63 | Calling get-or-create again with the same date adds nothing and returns the same month |
| Store.SameMonthSameRecord | Agenda/Services/CoreDataManager.swift:44-63 | Two dates in the same month and year reach the same month record |
| Store.FetchCurrentMonthKeepsKeysUnique | Agenda/Services/CoreDataManager.swift:51-63 | Without a failing fetch, get-or-create keeps at most one month per key |
| Store.FoundMonthIsOnlyMatch | Agenda/Services/CoreDataManager.swift:51-57 | With one month per key, the month found is the only month with today's key, whatever order the fetch lists matches in |
| Store.FailedFetchDuplicatesMonth | Agenda/Services/CoreDataManager.swift:54-63 | A fetch that throws while the month exists creates a second month with the same key |
| Store.FetchMonths | Agenda/Services/CoreDataManager.swift:66-69 | Listing gives every month of the context, or the empty list when the fetch throws; never an error |
| Store.CurrentMonthIsListed | Agenda/Services/CoreDataManager.swift:42-69 | The month get-or-create returns appears in the later listing |
| Store.SaveContext | Agenda/Services/CoreDataManager.swift:71-80 | Without pending changes, save leaves the context as it is. With changes, it commits the months and clears the flag, or crashes when the write is rejected |
| Store.SaveIdempotent | Agenda/Services/CoreDataManager.swift:71-80 | A second save after a successful one does nothing, and saving never changes what a fetch returns |
| GoalStatistics.CompletedUpTo | Agenda/Controllers/Summary/SummaryViewController.swift:92-97 | The completed count of the first n goals never exceeds n |
| GoalStatistics.GoalsTally | Agenda/Controllers/Summary/SummaryViewController.swift:92-99 | completed + uncompleted == all, and all is the number of goals |
| GoalStatistics.CompletedCountsCompletedGoals | Agenda/Controllers/Summary/SummaryViewController.swift:93-97 | The completed count equals the number of goals with current >= aim; the uncompleted count is the rest |
| GoalStatistics.NoneCompletedIff | Agenda/Controllers/Summary/SummaryViewController.swift:93-97 | No goal is counted completed if and only if every goal has current < aim |
| GoalStatistics.AllCompletedIff | Agenda/Controllers/Summary/SummaryViewController.swift:93-97 | No goal is counted uncompleted if and only if every goal has current >= aim |
| GoalStatistics.GoalsTallyConcat | Agenda/Controllers/Summary/SummaryViewController.swift:92-99 | The counts of a concatenation of goal lists are the sums of the parts' counts |
| GoalStatistics.MonthsUpToCountsAllGoals | Agenda/Controllers/Summary/SummaryViewController.swift:87-100 | Counting month by month equals counting the flat list of all goals of those months |
| GoalStatistics.MonthsTally | Agenda/Controllers/Summary/SummaryViewController.swift:87-100 | The counts over months exist exactly when every month's goals can be read, and are the counts of all goals of all months |
| GoalStatistics.ReadableConcat | Agenda/Controllers/Summary/SummaryViewController.swift:91 | A list of months is fully readable exactly when both parts of a concatenation are |
| GoalStatistics.MonthsTallyConcat | Agenda/Controllers/Summary/SummaryViewController.swift:90-99 | The counts are additive over concatenation of month lists |
| GoalStatistics.MonthsTallySwap | Agenda/Controllers/Summary/SummaryViewController.swift:90-99 | The counts do not depend on the order of two blocks of months |
| GoalStatistics.EmptyMonthCountsNothing | Agenda/Controllers/Summary/SummaryViewController.swift:90-99 | Adding a month without goals leaves the counts unchanged |
| GoalStatistics.RoundingIsUnique | Agenda/Controllers/Summary/SummaryViewController.swift:101 | At most one integer is the half-up rounding of a quotient, so the rounded ratio is determined |
| GoalStatistics.HalfUpDivision | Agenda/Controllers/Summary/SummaryViewController.swift:101 | (20c + t) div (2t) is 10c/t rounded to the nearest integer with halves going up, and is at most 10 when c <= t |
| GoalStatistics.PercentTenths | Agenda/Controllers/Summary/SummaryViewController.swift:101 | The tenths of round(10c/t)/10 satisfy the rounding relation and lie in 0..10 when c <= t |
| GoalStatistics.Percent | Agenda/Controllers/Summary/SummaryViewController.swift:101-102 | Slot 0 is NaN exactly when there are no goals, and is otherwise the rounded ratio |
| GoalStatistics.PercentInRange | Agenda/Controllers/Summary/SummaryViewController.swift:101-102 | With at least one goal, the ratio is a number between 0.0 and 1.0 |
| SummaryController.CountMonth | Agenda/Controllers/Summary/SummaryViewController.swift:92-99 | The inner loop adds the month's completed, uncompleted and total counts to the running counters |
| SummaryController.CountGoals | Agenda/Controllers/Summary/SummaryViewController.swift:86-106 | The counting loop returns the previous four slots untouched when some month's goals cannot be read. Otherwise it returns the rounded ratio and the three counts of the reference recount |
| SummaryController.RecountMeaning | Agenda/Controllers/Summary/SummaryViewController.swift:93-105 | After a recount, slot 1 is the number of goals with current >= aim, slot 2 the rest, slot 3 all goals, and slot 0 their ratio in tenths, or NaN for zero goals |
| SummaryController.RecountIdempotent | Agenda/Controllers/Summary/SummaryViewController.swift:86-106 | A successful recount depends only on the months, so recounting twice changes nothing |
| SummaryController.UnreadableMonthKeepsRows | Agenda/Controllers/Summary/SummaryViewController.swift:91 | If any month's goals cannot be read, every row keeps its previous value |
| SummaryController.RowAt | Agenda/Controllers/Summary/SummaryViewController.swift:125 | Section s shows the s-th slot with the measure "goals", and its title, icon and tint differ from those of every other section |
| SummaryController.InitialRowsShowZero | Agenda/Controllers/Summary/SummaryViewController.swift:22 | Before any count, every section shows zero |
| SummaryController.RowsAfterRecount | Agenda/Controllers/Summary/SummaryViewController.swift:17-22 | After a recount, section i shows the i-th title with the i-th slot: the ratio, completed, uncompleted and all goals |
| SummaryController.ViewDidLoad | Agenda/Controllers/Summary/SummaryViewController.swift:51-71 | A successful fetch subscribes the screen to store changes, keeps references to every month record and counts them. A failed fetch shows an alert and leaves snapshot and slots as they were. Loading keeps the screen able to be called back |
| SummaryController.ReloadTableView | Agenda/Controllers/Summary/SummaryViewController.swift:135-139 | A store change recounts the records the load referred to, with their goals as they are now; the list of records is not refreshed |
| SummaryController.InitialScreenWellFormed | Agenda/Controllers/Summary/SummaryViewController.swift:15-22 | A fresh screen has four zero slots, no snapshot and no subscription, so it can be loaded against any store |
| SummaryController.GrowthKeepsWellFormed | Agenda/Controllers/Summary/SummaryViewController.swift:60-70 | The store never removes month records, so a subscribed screen's force-unwrapped snapshot exists and refers to records of the store at every later callback |
| SummaryController.ResolveAllRefs | Agenda/Controllers/Summary/SummaryViewController.swift:67-69 | Reading references to the first n records gives those records as they are in the store now |
| SummaryController.ReloadIgnoresLaterMonths | Agenda/Controllers/Summary/SummaryViewController.swift:135-139 | Months added to the store after the load do not change what a recount shows |
| SummaryController.ReloadCountsEditedGoals | Agenda/Controllers/Summary/SummaryViewController.swift:90-99 | After the goals of a loaded month are replaced, a recount equals a fresh count of the edited store |
| SummaryController.ReloadAfterFetchCurrentMonth | Agenda/Services/CoreDataManager.swift:42-64 | Getting or creating the current month after the load keeps the screen's snapshot valid and leaves the recount unchanged |
| SummaryController.OneGoalMonth | Agenda/Controllers/Summary/SummaryViewController.swift:90-99 | A month holding one goal contributes one completed goal when current >= aim, and one uncompleted goal otherwise |
| SummaryController.EditedGoalShowsCompleted | Agenda/Controllers/Summary/SummaryViewController.swift:86-106 | One goal at 0 of a positive aim shows 0 completed, 1 uncompleted, 1 goal; after the same record is edited to reach its aim, the recount shows 1 completed, 0 uncompleted, 1 goal |
| SummaryController.CurrentMonthKeepsStatistics | Agenda/Services/CoreDataManager.swift:58-63 | Creating the current month, which has no goals, does not change the statistics |
| SummaryView.InitialView | Agenda/Modules/Summary/Views/SummaryViewController.swift:15-16 | The view starts with the four default cells, whose raw values are 0..3 in order, and no summaries |
| SummaryView.SetData | Agenda/Modules/Summary/Views/SummaryViewController.swift:51-52 | New summaries replace the old ones and set the section count; the cell selection is kept |
| SummaryView.TableShowsOneRowPerSummary | Agenda/Modules/Summary/Views/SummaryViewController.swift:81-87 | The table has one section per summary and exactly one row in each section |
| SummaryView.CellForRow | Agenda/Modules/Summary/Views/SummaryViewController.swift:89-94 | Section s shows summaries[cells[s].rawValue]. The lookup succeeds exactly when s < the number of cells and that raw value < the number of summaries |
| SummaryView.SetDataReplaces | Agenda/Modules/Summary/Views/SummaryViewController.swift:51-52 | Setting data replaces the summaries wholesale, and the section count becomes their number |
| SummaryView.Handle | Agenda/Modules/Summary/Views/SummaryViewController.swift:45-109 | No event changes the cell selection. Data arrival replaces the summaries and requests nothing. Loading and store changes request a fetch and leave the view as it is |
| SummaryView.RunShowsLastData | Agenda/Modules/Summary/Views/SummaryViewController.swift:51-52 | After any sequence of events, the view shows exactly the summaries of the last data event |
| SummaryView.AllSectionsRenderIff | Agenda/Modules/Summary/Views/SummaryViewController.swift:81-92 | Every one of the `summaries.count` sections renders exactly when there are no more summaries than cells and the cells of those sections index existing summaries |
| SummaryView.DefaultSelectionIsIdentity | Agenda/Modules/Summary/Views/SummaryViewController.swift:15 | With the default cells, section s shows the s-th summary, and every section renders if and only if at most four summaries are given |
| AddGoal.InitialForm | Agenda/Modules/AddGoal/AddGoalViewController.swift:20-24 | "Done" starts disabled with nothing entered |
| AddGoal.CheckBarButtonEnabled | Agenda/Modules/AddGoal/AddGoalViewController.swift:109-115 | The validator refuses exactly when the title, current or aim is the empty string, and never accepts the empty form |
| AddGoal.Assign | Agenda/Modules/AddGoal/AddGoalViewController.swift:14-18 | After an assignment the form holds the new data, and "Done" is enabled if and only if title, current and aim are all non-empty |
| AddGoal.DoneTapped | Agenda/Modules/AddGoal/AddGoalViewController.swift:101-103 | A tap forwards the entered data unchanged, and only while "Done" is enabled |
| AddGoal.EmptyFieldDisables | Agenda/Modules/AddGoal/AddGoalViewController.swift:110-114 | Emptying any one field disables "Done", whatever the others hold |
| AddGoal.OnlyEmptinessMatters | Agenda/Modules/AddGoal/AddGoalViewController.swift:110 | The validator checks only whether each field is empty; current and aim are not parsed as numbers |
| AddGoal.EditsStayConsistent | Agenda/Modules/AddGoal/AddGoalViewController.swift:14-18 | After any sequence of edits the enabled flag matches the validator, and the state depends only on the last edit |
| AddGoal.SentDataIsComplete | Agenda/Modules/AddGoal/AddGoalViewController.swift:101-115 | Data that reaches the output has all three fields filled in and is the last value entered |

## Left out

- Layout, constraints, table cells, animations, alerts' presentation, keyboard observers, onboarding and the HUD: presentation only.
- DateKeys.MonthKey: characters are modelled as Unicode scalars, while `index(offsetBy:)` and `replacingCharacters` count Swift `Character`s, which are grapheme clusters. The two agree on the formatter's output of ASCII digits and dots. On text whose first characters combine several scalars they would not, and the model does not cover such text.
- The formatting of the current date: `DateFormatter`, `Calendar`, locale and the clock are not modelled. Today's date enters as its formatted text. `DateKeys.Format` only models the shape of the `dd.MM.yyyy` pattern, for years 0..9999.
- Core Data internals: containers, background contexts, predicates, faulting and the `fatalError` when stores are loaded. The context is modelled as a sequence of months, a changed flag and the last persisted months. Fetch requests include pending inserts, as Core Data's do by default.
- Months whose `date` is nil: the model's keys are always strings.
- The store's change notification: `delegate` and `monthsFetchedResultsController`, used by the statistics screen, belong to a version of the persistence service that is not part of this model. The results controller is taken to fetch every month of the context. When `performFetch` throws, `fetchedObjects` is taken to be nil, since nothing was fetched. The screens' reactions to a change are modelled as events.
- Store.FetchCurrentMonth: returns the first matching month in the context's order. The fetch has no sort descriptors, and Core Data does not define the order of such a fetch, so when two months share a key the code may return either of them. `Store.FoundMonthIsOnlyMatch` shows the choice is immaterial while keys are unique, and `Store.FetchCurrentMonthKeepsKeysUnique` shows they stay unique unless a fetch throws. `Store.FetchByKeyFirst` and `Store.SecondFetchAddsNothing` rely on the same fixed order.
- Store.FetchMonths: the listing is modelled in the context's order. The fetch has no sort descriptors, so Core Data does not define the order, and months saved from pending inserts may come back in another order. `Store.SaveIdempotent`'s claim that saving leaves the listing unchanged relies on this fixed order. The statistics count does not depend on order, as `GoalStatistics.MonthsTallySwap` shows.
- Deleting month records: no modelled operation removes a month, so snapshot references stay in range. Goal edits are modelled by replacing a month's goals in the context; the goal-details screen that performs them is outside the modelled core.
- The presenter that builds the summaries for the Summary module, the `Summary` type's own declaration and the `SummaryCell` enum declaration are not part of this model. The raw values 0..3 in declaration order are taken from Swift's default for integer raw values.
- The `GoalData` declaration is not part of this model. Its default value is taken to have three empty fields.
- GoalStatistics.Percent: does not model double-precision rounding error. The ratio is computed exactly, which can differ from `Double` arithmetic only for 2^49 or more goals.
- GoalStatistics.GoalsTally: goal progress and aim are unbounded integers. The 64-bit storage width never matters for a `>=` comparison.
- SummaryController.ViewDidLoad: the title, background colour and table setup are not modelled. Only the fetch outcome, the subscription, the alert flag, the snapshot and the count are.
- GoalDetails, the Agenda screen's float progress bars and the onboarding flag: outside the modelled core.

=== FILE: add_goal.dfy ===
/**
 The "new goal" form: three text fields and a "Done" button that is
 enabled exactly when none of the fields is empty.
 */
module AddGoal {
  import opened Wrappers

  /** The text of the form's fields, as typed; current and aim are not parsed here. */
  datatype GoalData = GoalData(title: string, current: string, aim: string)

  /** The form before any edit. */
  function EmptyGoalData(): GoalData {
    GoalData("", "", "")
  }

  /** The form's state: the entered data and whether "Done" is enabled. */
  datatype Form = Form(goalData: GoalData, doneEnabled: bool)

  /** The form as it is opened: nothing entered and "Done" disabled. */
  function InitialForm(): (f: Form)
    ensures !f.doneEnabled
    ensures f.goalData.title == [] && f.goalData.current == [] && f.goalData.aim == []
  {
    Form(EmptyGoalData(), false)
  }

  /** The validator: "Done" may be enabled when title, current and aim are all non-empty. */
  function CheckBarButtonEnabled(g: GoalData): (enabled: bool)
    ensures !enabled <==> g.title == "" || g.current == "" || g.aim == ""
    ensures enabled ==> g != EmptyGoalData()
  {
    g.title != [] && g.current != [] && g.aim != []
  }

  /** Every assignment to the form's data re-runs the validator on the new value. */
  function Assign(f: Form, g: GoalData): (r: Form)
    ensures r.goalData == g
    ensures r.doneEnabled <==> |g.title| > 0 && |g.current| > 0 && |g.aim| > 0
  {
    Form(g, CheckBarButtonEnabled(g))
  }

  /**
   A tap on "Done": the entered data goes to the module's output unchanged.
   A disabled bar button delivers no tap, so nothing is sent then.
   */
  function DoneTapped(f: Form): (sent: Option<GoalData>)
    ensures sent.Some? <==> f.doneEnabled
    ensures sent.Some? ==> sent.value == f.goalData
  {
    if f.doneEnabled then Some(f.goalData) else None
  }

  /** The form after a sequence of edits. */
  function Edits(f: Form, values: seq<GoalData>): Form
    decreases |values|
  {
    if |values| == 0 then f
    else Assign(Edits(f, values[..|values| - 1]), values[|values| - 1])
  }

  /** The enabled flag agrees with the validator on the data shown. */
  predicate Consistent(f: Form) {
    f.doneEnabled == CheckBarButtonEnabled(f.goalData)
  }

  // ----- Properties -----

  /** Emptying any one field disables "Done", whatever the other fields hold. */
  lemma EmptyFieldDisables(f: Form, g: GoalData)
    ensures !Assign(f, g.(title := "")).doneEnabled
    ensures !Assign(f, g.(current := "")).doneEnabled
    ensures !Assign(f, g.(aim := "")).doneEnabled
  {
  }

  /** The validator looks at emptiness only: any text, numeric or not, counts as filled in. */
  lemma OnlyEmptinessMatters(g1: GoalData, g2: GoalData)
    requires (g1.title == []) == (g2.title == [])
    requires (g1.current == []) == (g2.current == [])
    requires (g1.aim == []) == (g2.aim == [])
    ensures CheckBarButtonEnabled(g1) == CheckBarButtonEnabled(g2)
  {
  }

  /** Every state reached from the opened form by edits is consistent, and depends only on the last edit. */
  lemma {:induction false} EditsStayConsistent(values: seq<GoalData>)
    ensures Consistent(Edits(InitialForm(), values))
    ensures |values| > 0 ==> Edits(InitialForm(), values) == Assign(InitialForm(), values[|values| - 1])
    decreases |values|
  {
    if |values| > 0 {
      EditsStayConsistent(values[..|values| - 1]);
    }
  }

  /** Whatever reaches the output has all three fields filled in and is exactly what was last entered. */
  lemma SentDataIsComplete(values: seq<GoalData>)
    requires DoneTapped(Edits(InitialForm(), values)).Some?
    ensures var sent := DoneTapped(Edits(InitialForm(), values)).value;
            && |values| > 0 && sent == values[|values| - 1]
            && sent.title != [] && sent.current != [] && sent.aim != []
  {
    EditsStayConsistent(values);
  }
}

=== FILE: date_keys.dfy ===
/**
 The month key under which month records are stored: today's date written
 as `dd.MM.yyyy`, with the day overwritten by `01`
 (for example `27.03.2022` becomes `01.03.2022`).
 */
module DateKeys {

  /**
   Replaces the first two characters of a formatted date by "01". In
   `fetchCurrentMonth`, `replacingCharacters` is given the closed range of
   the first two characters, so a string shorter than two characters is a
   run-time fault there.
   */
  function MonthKey(formatted: string): (key: string)
    requires |formatted| >= 2
    ensures |key| == |formatted|
    ensures key[0] == '0' && key[1] == '1'
    ensures forall i :: 2 <= i < |formatted| ==> key[i] == formatted[i]
  {
    "01" + formatted[2..]
  }

  /** Normalising a key a second time changes nothing. */
  lemma MonthKeyIdempotent(formatted: string)
    requires |formatted| >= 2
    ensures MonthKey(MonthKey(formatted)) == MonthKey(formatted)
  {
    var key := MonthKey(formatted);
    assert key[2..] == formatted[2..];
  }

  /** Two formatted dates give the same key exactly when they agree after the day. */
  lemma MonthKeyEqualIff(a: string, b: string)
    requires |a| >= 2 && |b| >= 2
    ensures MonthKey(a) == MonthKey(b) <==> a[2..] == b[2..]
  {
    if MonthKey(a) == MonthKey(b) {
      assert a[2..] == MonthKey(a)[2..];
      assert b[2..] == MonthKey(b)[2..];
    }
  }

  // ----- The `dd.MM.yyyy` format the key is taken from -----

  /** A calendar date as the formatter reads it; the year has at most four digits. */
  datatype Date = Date(day: int, month: int, year: int)

  predicate ValidDate(d: Date) {
    1 <= d.day <= 31 && 1 <= d.month <= 12 && 0 <= d.year <= 9999
  }

  function Digit(n: int): char
    requires 0 <= n < 10
  {
    ('0' as int + n) as char
  }

  function TwoDigits(n: int): string
    requires 0 <= n < 100
  {
    [Digit(n / 10), Digit(n % 10)]
  }

  function FourDigits(n: int): string
    requires 0 <= n < 10000
  {
    TwoDigits(n / 100) + TwoDigits(n % 100)
  }

  /** The date written with the pattern `dd.MM.yyyy`. */
  function Format(d: Date): (s: string)
    requires ValidDate(d)
    ensures |s| == 10
    ensures s[2] == '.' && s[5] == '.'
  {
    TwoDigits(d.day) + "." + TwoDigits(d.month) + "." + FourDigits(d.year)
  }

  lemma DigitInjective(a: int, b: int)
    requires 0 <= a < 10 && 0 <= b < 10
    ensures Digit(a) == Digit(b) ==> a == b
  {
  }

  lemma TwoDigitsInjective(a: int, b: int)
    requires 0 <= a < 100 && 0 <= b < 100
    ensures TwoDigits(a) == TwoDigits(b) ==> a == b
  {
    if TwoDigits(a) == TwoDigits(b) {
      DigitInjective(a / 10, b / 10);
      DigitInjective(a % 10, b % 10);
    }
  }

  lemma FourDigitsInjective(a: int, b: int)
    requires 0 <= a < 10000 && 0 <= b < 10000
    ensures FourDigits(a) == FourDigits(b) ==> a == b
  {
    if FourDigits(a) == FourDigits(b) {
      assert FourDigits(a)[..2] == TwoDigits(a / 100);
      assert FourDigits(b)[..2] == TwoDigits(b / 100);
      assert FourDigits(a)[2..] == TwoDigits(a % 100);
      assert FourDigits(b)[2..] == TwoDigits(b % 100);
      TwoDigitsInjective(a / 100, b / 100);
      TwoDigitsInjective(a % 100, b % 100);
    }
  }

  /** The part of a formatted date after the day: `.MM.yyyy`. */
  lemma FormatAfterDay(d: Date)
    requires ValidDate(d)
    ensures Format(d)[2..] == "." + TwoDigits(d.month) + "." + FourDigits(d.year)
  {
  }

  /** Two dates share a month key exactly when they fall in the same month of the same year. */
  lemma SameMonthIffSameKey(d1: Date, d2: Date)
    requires ValidDate(d1) && ValidDate(d2)
    ensures MonthKey(Format(d1)) == MonthKey(Format(d2)) <==> d1.month == d2.month && d1.year == d2.year
  {
    MonthKeyEqualIff(Format(d1), Format(d2));
    FormatAfterDay(d1);
    FormatAfterDay(d2);
    var t1, t2 := Format(d1)[2..], Format(d2)[2..];
    if t1 == t2 {
      assert t1[1..3] == TwoDigits(d1.month) && t2[1..3] == TwoDigits(d2.month);
      assert t1[4..] == FourDigits(d1.year) && t2[4..] == FourDigits(d2.year);
      TwoDigitsInjective(d1.month, d2.month);
      FourDigitsInjective(d1.year, d2.year);
    }
  }

  /** The key of any date is the formatted first day of its month. */
  lemma KeyIsFirstDayOfMonth(d: Date)
    requires ValidDate(d)
    ensures MonthKey(Format(d)) == Format(Date(1, d.month, d.year))
  {
    FormatAfterDay(d);
    FormatAfterDay(Date(1, d.month, d.year));
    assert TwoDigits(1) == "01";
  }
}

=== FILE: entities.dfy ===
/**
 Records of the goal tracker: the persisted `Goal` and `Month` entities and
 the derived, display-only `Summary`.
 */
module Entities {
  import opened Wrappers

  /** A user goal: progress `current` towards the target `aim`. */
  datatype Goal = Goal(title: string, current: int, aim: int)

  /** A goal counts as completed once its progress has reached the aim. */
  predicate IsCompleted(g: Goal) {
    g.current >= g.aim
  }

  /**
   A month record, keyed by a `01.MM.yyyy` date string. `goals` is `None`
   when the goals relationship cannot be read as an ordered list of goals.
   */
  datatype Month = Month(date: string, goals: Option<seq<Goal>>)

  /** A month that has just been created: the given key and no goals. */
  function EmptyMonth(key: string): Month
  {
    Month(key, Some([]))
  }

  /** Tint colours used by the statistics rows. */
  datatype Tint = SystemTeal | SystemGreen | SystemRed | SystemOrange

  /**
   A displayed statistic value. Every value the statistics screen shows is a
   whole number or a number rounded to one decimal, so it is kept exactly as
   a count of tenths; `NaN` is the floating-point result of `0 / 0`.
   */
  datatype Number = Decimal(tenths: int) | NaN

  /** One row of the statistics screen. */
  datatype Summary = Summary(iconImagePath: string, title: string, tintColor: Tint, number: Number, measure: string)
}

=== FILE: goal_statistics.dfy ===
/**
 Goal statistics: how many goals are completed, uncompleted and recorded
 in all, and the completion ratio rounded to one decimal, kept exactly as
 a whole number of tenths.
 */
module GoalStatistics {
  import opened Wrappers
  import opened Entities

  datatype Tally = Tally(completed: nat, uncompleted: nat, all: nat)

  function Plus(a: Tally, b: Tally): Tally {
    Tally(a.completed + b.completed, a.uncompleted + b.uncompleted, a.all + b.all)
  }

  /** How many of the first `n` goals are completed, counted one goal at a time in list order. */
  function CompletedUpTo(goals: seq<Goal>, n: nat): (c: nat)
    requires n <= |goals|
    ensures c <= n
  {
    if n == 0 then 0
    else CompletedUpTo(goals, n - 1) + (if IsCompleted(goals[n - 1]) then 1 else 0)
  }

  /** Counts all goals of a list: each goal is completed or uncompleted, and one more in all. */
  function GoalsTally(goals: seq<Goal>): (t: Tally)
    ensures t.completed + t.uncompleted == t.all == |goals|
  {
    var c := CompletedUpTo(goals, |goals|);
    Tally(c, |goals| - c, |goals|)
  }

  /** Positions below `n` of completed goals. */
  function CompletedBelow(goals: seq<Goal>, n: nat): set<int>
    requires n <= |goals|
  {
    set i | 0 <= i < n && IsCompleted(goals[i])
  }

  /** Positions of the completed goals of a list. */
  function CompletedPositions(goals: seq<Goal>): set<int> {
    CompletedBelow(goals, |goals|)
  }

  lemma {:induction false} CompletedBelowCounted(goals: seq<Goal>, n: nat)
    requires n <= |goals|
    ensures CompletedUpTo(goals, n) == |CompletedBelow(goals, n)|
    decreases n
  {
    if n > 0 {
      CompletedBelowCounted(goals, n - 1);
      if IsCompleted(goals[n - 1]) {
        assert CompletedBelow(goals, n) == CompletedBelow(goals, n - 1) + {n - 1};
      } else {
        assert CompletedBelow(goals, n) == CompletedBelow(goals, n - 1);
      }
    }
  }

  /** The completed count is the number of goals with `current >= aim`; the rest are uncompleted. */
  lemma CompletedCountsCompletedGoals(goals: seq<Goal>)
    ensures GoalsTally(goals).completed == |CompletedPositions(goals)|
    ensures GoalsTally(goals).uncompleted == |goals| - |CompletedPositions(goals)|
  {
    CompletedBelowCounted(goals, |goals|);
  }

  lemma {:induction false} NoneCompletedBelow(goals: seq<Goal>, n: nat)
    requires n <= |goals|
    ensures CompletedUpTo(goals, n) == 0 <==> forall i :: 0 <= i < n ==> !IsCompleted(goals[i])
    decreases n
  {
    if n > 0 {
      NoneCompletedBelow(goals, n - 1);
    }
  }

  lemma {:induction false} AllCompletedBelow(goals: seq<Goal>, n: nat)
    requires n <= |goals|
    ensures CompletedUpTo(goals, n) == n <==> forall i :: 0 <= i < n ==> IsCompleted(goals[i])
    decreases n
  {
    if n > 0 {
      AllCompletedBelow(goals, n - 1);
    }
  }

  /** No goal is counted as completed exactly when every goal is short of its aim. */
  lemma NoneCompletedIff(goals: seq<Goal>)
    ensures GoalsTally(goals).completed == 0 <==> forall i :: 0 <= i < |goals| ==> !IsCompleted(goals[i])
  {
    NoneCompletedBelow(goals, |goals|);
  }

  /** No goal is counted as uncompleted exactly when every goal has reached its aim. */
  lemma AllCompletedIff(goals: seq<Goal>)
    ensures GoalsTally(goals).uncompleted == 0 <==> forall i :: 0 <= i < |goals| ==> IsCompleted(goals[i])
  {
    AllCompletedBelow(goals, |goals|);
  }

  /** A count of the first `n` goals only looks at those goals. */
  lemma {:induction false} CompletedUpToPrefix(a: seq<Goal>, b: seq<Goal>, n: nat)
    requires n <= |a| && n <= |b|
    requires forall i :: 0 <= i < n ==> a[i] == b[i]
    ensures CompletedUpTo(a, n) == CompletedUpTo(b, n)
    decreases n
  {
    if n > 0 {
      CompletedUpToPrefix(a, b, n - 1);
    }
  }

  lemma {:induction false} CompletedUpToConcat(a: seq<Goal>, b: seq<Goal>, k: nat)
    requires k <= |b|
    ensures CompletedUpTo(a + b, |a| + k) == CompletedUpTo(a, |a|) + CompletedUpTo(b, k)
    decreases k
  {
    var ab := a + b;
    if k == 0 {
      assert forall i :: 0 <= i < |a| ==> ab[i] == a[i];
      CompletedUpToPrefix(ab, a, |a|);
    } else {
      CompletedUpToConcat(a, b, k - 1);
      assert ab[|a| + k - 1] == b[k - 1];
    }
  }

  /** Counting a concatenation is adding the counts of its parts. */
  lemma GoalsTallyConcat(a: seq<Goal>, b: seq<Goal>)
    ensures GoalsTally(a + b) == Plus(GoalsTally(a), GoalsTally(b))
  {
    CompletedUpToConcat(a, b, |b|);
  }

  // ----- Months -----

  /** Every month's goals can be read. */
  predicate Readable(months: seq<Month>) {
    forall i :: 0 <= i < |months| ==> months[i].goals.Some?
  }

  /** The goals a month contributes; a month whose goals cannot be read contributes none. */
  function GoalsOf(m: Month): seq<Goal> {
    match m.goals
    case Some(goals) => goals
    case None => []
  }

  /** The goals of all months, month after month. */
  function AllGoals(months: seq<Month>): seq<Goal>
    decreases |months|
  {
    if |months| == 0 then []
    else AllGoals(months[..|months| - 1]) + GoalsOf(months[|months| - 1])
  }

  lemma {:induction false} AllGoalsConcat(a: seq<Month>, b: seq<Month>)
    ensures AllGoals(a + b) == AllGoals(a) + AllGoals(b)
    decreases |b|
  {
    if |b| > 0 {
      var n := |b| - 1;
      assert (a + b)[..|a + b| - 1] == a + b[..n];
      AllGoalsConcat(a, b[..n]);
    } else {
      assert a + b == a;
      assert AllGoals(b) == [];
    }
  }

  /** The counts of the first `n` months, month by month, as the counting loop visits them. */
  function MonthsUpTo(months: seq<Month>, n: nat): Tally
    requires n <= |months|
  {
    if n == 0 then Tally(0, 0, 0)
    else Plus(MonthsUpTo(months, n - 1), GoalsTally(GoalsOf(months[n - 1])))
  }

  /** Counting month by month is counting the flat list of all their goals. */
  lemma {:induction false} MonthsUpToCountsAllGoals(months: seq<Month>, n: nat)
    requires n <= |months|
    ensures MonthsUpTo(months, n) == GoalsTally(AllGoals(months[..n]))
    decreases n
  {
    if n > 0 {
      MonthsUpToCountsAllGoals(months, n - 1);
      assert months[..n][..n - 1] == months[..n - 1];
      GoalsTallyConcat(AllGoals(months[..n - 1]), GoalsOf(months[n - 1]));
    }
  }

  /**
   The counts over all months: `None` when some month's goals cannot be
   read, otherwise the tally of every goal of every month.
   */
  function MonthsTally(months: seq<Month>): (r: Option<Tally>)
    ensures r.Some? <==> Readable(months)
    ensures r.Some? ==> r.value == GoalsTally(AllGoals(months))
  {
    MonthsUpToCountsAllGoals(months, |months|);
    assert months[..|months|] == months;
    if Readable(months) then Some(MonthsUpTo(months, |months|)) else None
  }

  lemma ReadableConcat(a: seq<Month>, b: seq<Month>)
    ensures Readable(a + b) <==> Readable(a) && Readable(b)
  {
    if Readable(a) && Readable(b) {
      forall i | 0 <= i < |a + b|
        ensures (a + b)[i].goals.Some?
      {
        if i < |a| {
          assert (a + b)[i] == a[i];
        } else {
          assert (a + b)[i] == b[i - |a|];
        }
      }
    }
    if Readable(a + b) {
      forall i | 0 <= i < |a|
        ensures a[i].goals.Some?
      {
        assert (a + b)[i] == a[i];
      }
      forall i | 0 <= i < |b|
        ensures b[i].goals.Some?
      {
        assert (a + b)[|a| + i] == b[i];
      }
    }
  }

  /** Counting a concatenation of month lists adds the counts of the two lists. */
  lemma MonthsTallyConcat(a: seq<Month>, b: seq<Month>)
    requires Readable(a) && Readable(b)
    ensures MonthsTally(a + b) == Some(Plus(MonthsTally(a).value, MonthsTally(b).value))
  {
    ReadableConcat(a, b);
    AllGoalsConcat(a, b);
    GoalsTallyConcat(AllGoals(a), AllGoals(b));
  }

  /** The counts do not depend on the order of two blocks of months. */
  lemma MonthsTallySwap(a: seq<Month>, b: seq<Month>)
    ensures MonthsTally(a + b) == MonthsTally(b + a)
  {
    ReadableConcat(a, b);
    ReadableConcat(b, a);
    if Readable(a) && Readable(b) {
      MonthsTallyConcat(a, b);
      MonthsTallyConcat(b, a);
    }
  }

  /** A month without goals adds nothing to the counts. */
  lemma EmptyMonthCountsNothing(months: seq<Month>, key: string)
    ensures MonthsTally(months + [EmptyMonth(key)]) == MonthsTally(months)
  {
    var ms := months + [EmptyMonth(key)];
    assert ms[..|ms| - 1] == months;
    assert forall i :: 0 <= i < |months| ==> ms[i] == months[i];
    assert AllGoals(ms) == AllGoals(months) + [];
    assert AllGoals(months) + [] == AllGoals(months);
  }

  // ----- Rounding to tenths -----

  /**
   `n` is `num / den` rounded to the nearest integer, halves rounded up:
   n - 1/2 <= num / den < n + 1/2. For non-negative quotients this is the
   round-half-away-from-zero rule of the platform's `round`.
   */
  predicate RoundsTo(n: int, num: int, den: int)
    requires den > 0
  {
    den * (2 * n - 1) <= 2 * num < den * (2 * n + 1)
  }

  /** At most one integer is the rounded value of a quotient. */
  lemma RoundingIsUnique(n: int, m: int, num: int, den: int)
    requires den > 0
    requires RoundsTo(n, num, den) && RoundsTo(m, num, den)
    ensures n == m
  {
    if n < m {
      assert den * (2 * n + 1) <= den * (2 * m - 1) by {
        MultiplyMonotonic(den, 2 * n + 1, 2 * m - 1);
      }
    } else if m < n {
      assert den * (2 * m + 1) <= den * (2 * n - 1) by {
        MultiplyMonotonic(den, 2 * m + 1, 2 * n - 1);
      }
    }
  }

  lemma MultiplyMonotonic(k: int, x: int, y: int)
    requires k > 0 && x <= y
    ensures k * x <= k * y
  {
  }

  /** Integer division by `2 * all` rounds `10 * completed / all` to the nearest integer. */
  lemma HalfUpDivision(completed: nat, all: nat)
    requires all > 0
    ensures RoundsTo((20 * completed + all) / (2 * all), 10 * completed, all)
    ensures completed <= all ==> (20 * completed + all) / (2 * all) <= 10
  {
    var num := 20 * completed + all;
    var q := num / (2 * all);
    assert 2 * all * q <= num < 2 * all * q + 2 * all;
    if completed <= all {
      assert num <= 21 * all;
      if q > 10 {
        MultiplyMonotonic(2 * all, 11, q);
      }
    }
  }

  /**
   The ratio `completed / all` rounded to one decimal, counted in tenths:
   the nearest integer to `10 * completed / all`, computed with integer
   division only.
   */
  function PercentTenths(completed: nat, all: nat): (r: nat)
    requires all > 0
    ensures RoundsTo(r, 10 * completed, all)
    ensures completed <= all ==> r <= 10
  {
    HalfUpDivision(completed, all);
    (20 * completed + all) / (2 * all)
  }

  /** The slot-0 value: the rounded completion ratio, or NaN when there are no goals (0 / 0). */
  function Percent(t: Tally): (r: Number)
    ensures r.NaN? <==> t.all == 0
    ensures r.Decimal? ==> RoundsTo(r.tenths, 10 * t.completed, t.all)
  {
    if t.all == 0 then NaN else Decimal(PercentTenths(t.completed, t.all))
  }

  /** A ratio of counts lies between 0.0 and 1.0. */
  lemma PercentInRange(goals: seq<Goal>)
    requires |goals| > 0
    ensures Percent(GoalsTally(goals)).Decimal?
    ensures 0 <= Percent(GoalsTally(goals)).tenths <= 10
  {
  }
}

=== FILE: store.dfy ===
/**
 The persistence service: a managed-object context holding month records,
 the get-or-create lookup of the current month, the listing of all months
 and the dirty-checked save. The context is an explicit value; the outcome
 of the storage I/O (a fetch that throws, a save the medium rejects) is
 passed in as a parameter.
 */
module Store {
  import opened Wrappers
  import opened Entities
  import opened DateKeys

  /**
   The context: the months it currently holds (pending inserts included,
   as a fetch sees them), whether it has unsaved changes, and what was last
   written to durable storage.
   */
  datatype Context = Context(months: seq<Month>, hasChanges: bool, persisted: seq<Month>)

  /** A store whose months have pairwise distinct keys. */
  predicate UniqueKeys(months: seq<Month>) {
    forall i, j :: 0 <= i < j < |months| ==> months[i].date != months[j].date
  }

  predicate HasKey(months: seq<Month>, key: string) {
    exists i :: 0 <= i < |months| && months[i].date == key
  }

  /** Index `i` holds the first month, in store order, whose key is `key`. */
  predicate IsFirstWithKey(months: seq<Month>, key: string, i: int) {
    && 0 <= i < |months|
    && months[i].date == key
    && forall j :: 0 <= j < i ==> months[j].date != key
  }

  /** The fetch request `date = key`: the months with that key, in store order. */
  function FetchByKey(months: seq<Month>, key: string): (r: seq<Month>)
    ensures |r| <= |months|
    ensures forall k :: 0 <= k < |r| ==> r[k].date == key
    ensures forall i :: 0 <= i < |months| && months[i].date == key ==> months[i] in r
    ensures forall m :: m in r ==> m in months
    decreases |months|
  {
    if |months| == 0 then []
    else
      var rest := FetchByKey(months[1..], key);
      assert forall i :: 1 <= i < |months| ==> months[i] == months[1..][i - 1];
      if months[0].date == key then [months[0]] + rest else rest
  }

  /** The first fetched month is the first month in store order with the key. */
  lemma {:induction false} FetchByKeyFirst(months: seq<Month>, key: string)
    requires |FetchByKey(months, key)| > 0
    ensures exists i :: IsFirstWithKey(months, key, i) && months[i] == FetchByKey(months, key)[0]
    decreases |months|
  {
    if months[0].date == key {
      assert IsFirstWithKey(months, key, 0);
    } else {
      FetchByKeyFirst(months[1..], key);
      var i :| IsFirstWithKey(months[1..], key, i) && months[1..][i] == FetchByKey(months[1..], key)[0];
      assert IsFirstWithKey(months, key, i + 1);
    }
  }

  /** A month and the context after the call that produced it. */
  datatype Fetched = Fetched(month: Month, context: Context)

  /**
   Get-or-create of the current month. `today` is the current date as
   formatted text; `fetchFails` says whether the fetch throws, which
   `try?` in `fetchCurrentMonth` swallows and treats like an empty result.
   */
  function FetchCurrentMonth(ctx: Context, today: string, fetchFails: bool): (r: Fetched)
    requires |today| >= 2
    ensures r.month.date == MonthKey(today)
    ensures HasKey(r.context.months, MonthKey(today))
    ensures !fetchFails && HasKey(ctx.months, MonthKey(today)) ==>
              r.context == ctx && exists i :: IsFirstWithKey(ctx.months, MonthKey(today), i) && r.month == ctx.months[i]
    ensures fetchFails || !HasKey(ctx.months, MonthKey(today)) ==>
              && r.month.goals == Some([])
              && r.context.months == ctx.months + [r.month]
              && r.context.hasChanges
              && r.context.persisted == ctx.persisted
  {
    var key := MonthKey(today);
    var found := if fetchFails then None else Some(FetchByKey(ctx.months, key));
    if found.Some? && |found.value| > 0 then
      FetchByKeyFirst(ctx.months, key);
      Fetched(found.value[0], ctx)
    else
      var month := EmptyMonth(key);
      var months := ctx.months + [month];
      assert months[|ctx.months|] == month;
      Fetched(month, Context(months, true, ctx.persisted))
  }

  /** All months in the context; a fetch that throws yields the empty list. */
  function FetchMonths(ctx: Context, fetchFails: bool): (r: seq<Month>)
    ensures fetchFails ==> r == []
    ensures !fetchFails ==> r == ctx.months
  {
    if fetchFails then [] else ctx.months
  }

  /** Result of a save: the new context, or the process-terminating fault raised when the write is rejected. */
  datatype SaveOutcome = Saved(context: Context) | Crashed

  /** Writes pending changes, if there are any; `writeFails` says whether the medium rejects the write. */
  function SaveContext(ctx: Context, writeFails: bool): (r: SaveOutcome)
    ensures !ctx.hasChanges ==> r == Saved(ctx)
    ensures ctx.hasChanges && writeFails ==> r == Crashed
    ensures ctx.hasChanges && !writeFails ==>
              r.Saved? && r.context.months == ctx.months && r.context.persisted == ctx.months && !r.context.hasChanges
  {
    if !ctx.hasChanges then Saved(ctx)
    else if writeFails then Crashed
    else Saved(Context(ctx.months, false, ctx.months))
  }

  // ----- Properties relating several calls -----

  /** A second lookup in the same month, with no failing fetch, adds nothing and returns the same record. */
  lemma SecondFetchAddsNothing(ctx: Context, today: string)
    requires |today| >= 2
    ensures var r1 := FetchCurrentMonth(ctx, today, false);
            FetchCurrentMonth(r1.context, today, false) == r1
  {
    var key := MonthKey(today);
    var r1 := FetchCurrentMonth(ctx, today, false);
    var r2 := FetchCurrentMonth(r1.context, today, false);
    if !HasKey(ctx.months, key) {
      var i :| IsFirstWithKey(r1.context.months, key, i) && r2.month == r1.context.months[i];
      assert i == |ctx.months|;
    } else {
      var i :| IsFirstWithKey(ctx.months, key, i) && r1.month == ctx.months[i];
      var i2 :| IsFirstWithKey(ctx.months, key, i2) && r2.month == ctx.months[i2];
      assert i == i2;
    }
  }

  /** Two dates of the same month and year reach the same month record. */
  lemma SameMonthSameRecord(ctx: Context, d1: Date, d2: Date)
    requires ValidDate(d1) && ValidDate(d2)
    requires d1.month == d2.month && d1.year == d2.year
    ensures var r1 := FetchCurrentMonth(ctx, Format(d1), false);
            FetchCurrentMonth(r1.context, Format(d2), false) == r1
  {
    SameMonthIffSameKey(d1, d2);
    SecondFetchAddsNothing(ctx, Format(d1));
  }

  /** Without a failing fetch, get-or-create keeps month keys unique. */
  lemma FetchCurrentMonthKeepsKeysUnique(ctx: Context, today: string)
    requires |today| >= 2
    requires UniqueKeys(ctx.months)
    ensures UniqueKeys(FetchCurrentMonth(ctx, today, false).context.months)
  {
    var key := MonthKey(today);
    var r := FetchCurrentMonth(ctx, today, false);
    if !HasKey(ctx.months, key) {
      var ms := r.context.months;
      forall i, j | 0 <= i < j < |ms|
        ensures ms[i].date != ms[j].date
      {
        if j == |ctx.months| {
          assert ms[i] == ctx.months[i];
        }
      }
    }
  }

  /** A fetch that throws while the month already exists creates a second record with the same key. */
  lemma FailedFetchDuplicatesMonth(ctx: Context, today: string)
    requires |today| >= 2
    requires HasKey(ctx.months, MonthKey(today))
    ensures !UniqueKeys(FetchCurrentMonth(ctx, today, true).context.months)
  {
    var key := MonthKey(today);
    var ms := FetchCurrentMonth(ctx, today, true).context.months;
    var i :| 0 <= i < |ctx.months| && ctx.months[i].date == key;
    assert ms[i].date == key && ms[|ctx.months|].date == key;
  }

  /** The current month is among the months listed afterwards. */
  lemma CurrentMonthIsListed(ctx: Context, today: string, fetchFails: bool)
    requires |today| >= 2
    ensures var r := FetchCurrentMonth(ctx, today, fetchFails);
            r.month in FetchMonths(r.context, false)
  {
    var r := FetchCurrentMonth(ctx, today, fetchFails);
    if !fetchFails && HasKey(ctx.months, MonthKey(today)) {
      var i :| IsFirstWithKey(ctx.months, MonthKey(today), i) && r.month == ctx.months[i];
    } else {
      assert r.context.months[|ctx.months|] == r.month;
    }
  }

  /**
   With one month per key, the month get-or-create finds is the only month
   with that key, so which match an unsorted fetch would list first does
   not matter.
   */
  lemma FoundMonthIsOnlyMatch(ctx: Context, today: string)
    requires |today| >= 2
    requires UniqueKeys(ctx.months) && HasKey(ctx.months, MonthKey(today))
    ensures var r := FetchCurrentMonth(ctx, today, false);
            forall i :: 0 <= i < |ctx.months| && ctx.months[i].date == MonthKey(today) ==> ctx.months[i] == r.month
  {
    var key := MonthKey(today);
    var r := FetchCurrentMonth(ctx, today, false);
    var i0 :| IsFirstWithKey(ctx.months, key, i0) && r.month == ctx.months[i0];
    forall i | 0 <= i < |ctx.months| && ctx.months[i].date == key
      ensures ctx.months[i] == r.month
    {
      assert i == i0;
    }
  }

  /** Saving twice is the same as saving once; a save never changes what a fetch returns. */
  lemma SaveIdempotent(ctx: Context)
    requires SaveContext(ctx, false).Saved?
    ensures var c1 := SaveContext(ctx, false).context;
            SaveContext(c1, false) == Saved(c1) && FetchMonths(c1, false) == FetchMonths(ctx, false)
  {
  }
}

=== FILE: summary_controller.dfy ===
/**
 The statistics screen that counts goals itself: four number slots filled
 by `countGoals`, rendered as four one-row sections built from parallel
 arrays, and recounted when the store reports a change.
 */
module SummaryController {
  import opened Wrappers
  import opened Entities
  import opened GoalStatistics
  import Store

  // The parallel arrays a row is built from, one entry per section.
  const ImagePaths: seq<string> := ["number", "checkmark.square", "xmark.square", "list.bullet"]

  const TitleLabels: seq<string> := ["Average number of completed goals", "Completed goals", "Uncompleted goals", "All goals"]

  const TintColors: seq<Tint> := [SystemTeal, SystemGreen, SystemRed, SystemOrange]

  const MeasureLabels: seq<string> := ["goals", "goals", "goals", "goals"]

  /** The slots before anything has been counted. */
  const InitialNumbers: seq<Number> := [Decimal(0), Decimal(0), Decimal(0), Decimal(0)]

  /** The screen always shows four sections. */
  const SectionCount: nat := 4

  /** A whole count shown as a decimal number. */
  function Whole(n: nat): Number {
    Decimal(10 * n)
  }

  /** The four slot values for a tally: rounded ratio, completed, uncompleted, all. */
  function Slots(t: Tally): seq<Number> {
    [Percent(t), Whole(t.completed), Whole(t.uncompleted), Whole(t.all)]
  }

  /**
   Reference meaning of a recount: the slots are left as they were when some
   month's goals cannot be read, and are otherwise the slots of the tally of
   every goal of every month.
   */
  function Recount(months: seq<Month>, numbers: seq<Number>): seq<Number> {
    match MonthsTally(months)
    case None => numbers
    case Some(t) => Slots(t)
  }

  /** The inner counting loop: adds the goals of one month to running counts. */
  method CountMonth(goals: seq<Goal>, start: Tally) returns (t: Tally)
    ensures t == Plus(start, GoalsTally(goals))
  {
    var completed, uncompleted, all := start.completed, start.uncompleted, start.all;
    var j := 0;
    while j < |goals|
      invariant 0 <= j <= |goals|
      invariant completed == start.completed + CompletedUpTo(goals, j)
      invariant uncompleted == start.uncompleted + (j - CompletedUpTo(goals, j))
      invariant all == start.all + j
    {
      if goals[j].current >= goals[j].aim {
        completed := completed + 1;
      } else {
        uncompleted := uncompleted + 1;
      }
      all := all + 1;
      j := j + 1;
    }
    t := Tally(completed, uncompleted, all);
  }

  /** The counting loop over every goal of every month, with the early return on an unreadable month. */
  method CountGoals(months: seq<Month>, numbers: seq<Number>) returns (r: seq<Number>)
    requires |numbers| == SectionCount
    ensures |r| == SectionCount
    ensures !Readable(months) ==> r == numbers
    ensures r == Recount(months, numbers)
  {
    var t := Tally(0, 0, 0);
    var i := 0;
    while i < |months|
      invariant 0 <= i <= |months|
      invariant forall k :: 0 <= k < i ==> months[k].goals.Some?
      invariant t == MonthsUpTo(months, i)
    {
      if months[i].goals.None? {
        return numbers;
      }
      t := CountMonth(months[i].goals.value, t);
      i := i + 1;
    }
    r := Slots(t);
  }

  /**
   A snapshot of month records held by reference: each entry is the
   position of a record in the context's month list. Reading through a
   reference yields the record's goals as they are now, not as they were
   when the snapshot was taken.
   */
  predicate ValidRefs(refs: seq<nat>, count: nat) {
    forall k :: 0 <= k < |refs| ==> refs[k] < count
  }

  /** The records a snapshot refers to, read from the context's current months. */
  function Resolve(months: seq<Month>, refs: seq<nat>): (r: seq<Month>)
    requires ValidRefs(refs, |months|)
    ensures |r| == |refs|
  {
    seq(|refs|, k requires 0 <= k < |refs| => months[refs[k]])
  }

  /** References to the first `n` records, in order: what a fetch of every month hands out. */
  function AllRefs(n: nat): (r: seq<nat>)
    ensures |r| == n && ValidRefs(r, n)
  {
    seq(n, k requires 0 <= k < n => k)
  }

  /** The screen's state: the month snapshot it counts over, the slots, and whether it listens to store changes. */
  datatype Screen = Screen(months: Option<seq<nat>>, numbers: seq<Number>, subscribed: bool, alertShown: bool)

  const InitialScreen := Screen(None, InitialNumbers, false, false)

  /**
   A screen the store can call back: it has four slots, it only listens to
   changes once it holds a snapshot, and the snapshot refers to records of
   the context.
   */
  predicate WellFormed(s: Screen, months: seq<Month>) {
    && |s.numbers| == SectionCount
    && (s.subscribed ==> s.months.Some?)
    && (s.months.Some? ==> ValidRefs(s.months.value, |months|))
  }

  /**
   Screen load. A successful fetch of every month subscribes the screen to
   store changes, takes references to all records as the snapshot and
   counts them; a failed fetch shows an alert, and as nothing was fetched
   there is no snapshot and nothing is counted.
   */
  method ViewDidLoad(s: Screen, ctx: Store.Context, fetchSucceeded: bool) returns (r: Screen)
    requires |s.numbers| == SectionCount
    ensures r.subscribed == (s.subscribed || fetchSucceeded)
    ensures r.alertShown == (s.alertShown || !fetchSucceeded)
    ensures !fetchSucceeded ==> r.months == s.months && r.numbers == s.numbers
    ensures fetchSucceeded ==> r.months == Some(AllRefs(|ctx.months|)) && r.numbers == Recount(ctx.months, s.numbers)
    ensures WellFormed(s, ctx.months) ==> WellFormed(r, ctx.months)
  {
    r := s.(subscribed := s.subscribed || fetchSucceeded, alertShown := s.alertShown || !fetchSucceeded);
    if fetchSucceeded {
      var numbers := CountGoals(ctx.months, s.numbers);
      r := r.(months := Some(AllRefs(|ctx.months|)), numbers := numbers);
    }
  }

  /**
   Store-change callback: recounts the records of the snapshot taken at
   load time, reading their goals as they are in the context now. The
   snapshot must exist, as it is force-unwrapped; months inserted after the
   load are not in it.
   */
  method ReloadTableView(s: Screen, ctx: Store.Context) returns (r: Screen)
    requires |s.numbers| == SectionCount
    requires s.months.Some? && ValidRefs(s.months.value, |ctx.months|)
    ensures r.months == s.months && r.subscribed == s.subscribed && r.alertShown == s.alertShown
    ensures r.numbers == Recount(Resolve(ctx.months, s.months.value), s.numbers)
    ensures WellFormed(r, ctx.months)
  {
    var numbers := CountGoals(Resolve(ctx.months, s.months.value), s.numbers);
    r := s.(numbers := numbers);
  }

  /** The row of section `section`: the `section`-th entry of each parallel array. */
  function RowAt(numbers: seq<Number>, section: nat): (r: Summary)
    requires |numbers| == SectionCount && section < SectionCount
    ensures r.number == numbers[section] && r.measure == "goals"
    ensures forall other :: 0 <= other < SectionCount && other != section ==>
              && r.title != TitleLabels[other]
              && r.iconImagePath != ImagePaths[other]
              && r.tintColor != TintColors[other]
  {
    Summary(ImagePaths[section], TitleLabels[section], TintColors[section], numbers[section], MeasureLabels[section])
  }

  // ----- Properties -----

  /** A recount's result depends only on the months once they are readable, so recounting twice changes nothing. */
  lemma RecountIdempotent(months: seq<Month>, numbers: seq<Number>)
    requires |numbers| == SectionCount
    ensures |Recount(months, numbers)| == SectionCount
    ensures Recount(months, Recount(months, numbers)) == Recount(months, numbers)
    ensures Readable(months) ==> forall other :: Recount(months, other) == Recount(months, numbers)
  {
  }

  /**
   What a successful recount shows: slot 1 the number of goals with
   `current >= aim`, slot 2 the rest, slot 3 every goal of every month, and
   slot 0 their ratio rounded to one decimal (NaN when there are no goals).
   */
  lemma RecountMeaning(months: seq<Month>, numbers: seq<Number>)
    requires Readable(months)
    ensures var goals := AllGoals(months);
            var ns := Recount(months, numbers);
            && |ns| == SectionCount
            && ns[1] == Decimal(10 * |CompletedPositions(goals)|)
            && ns[2] == Decimal(10 * (|goals| - |CompletedPositions(goals)|))
            && ns[3] == Decimal(10 * |goals|)
            && (ns[0].NaN? <==> |goals| == 0)
            && (|goals| > 0 ==> RoundsTo(ns[0].tenths, 10 * |CompletedPositions(goals)|, |goals|) && 0 <= ns[0].tenths <= 10)
  {
    var goals := AllGoals(months);
    CompletedCountsCompletedGoals(goals);
  }

  /** Before any count, every section shows zero. */
  lemma InitialRowsShowZero(section: nat)
    requires section < SectionCount
    ensures RowAt(InitialScreen.numbers, section).number == Decimal(0)
  {
  }

  /**
   After a successful recount, each row's title matches its number: the
   ratio row shows the rounded ratio, the others the three counts.
   */
  lemma RowsAfterRecount(months: seq<Month>, numbers: seq<Number>)
    requires |numbers| == SectionCount && Readable(months)
    ensures var ns := Recount(months, numbers);
            var t := GoalsTally(AllGoals(months));
            && RowAt(ns, 0).title == "Average number of completed goals" && RowAt(ns, 0).number == Percent(t)
            && RowAt(ns, 1).title == "Completed goals" && RowAt(ns, 1).number == Whole(t.completed)
            && RowAt(ns, 2).title == "Uncompleted goals" && RowAt(ns, 2).number == Whole(t.uncompleted)
            && RowAt(ns, 3).title == "All goals" && RowAt(ns, 3).number == Whole(t.all)
            && t.completed + t.uncompleted == t.all
  {
  }

  /** An unreadable month leaves every row exactly as it was. */
  lemma UnreadableMonthKeepsRows(months: seq<Month>, numbers: seq<Number>, section: nat)
    requires |numbers| == SectionCount && section < SectionCount
    requires exists i :: 0 <= i < |months| && months[i].goals.None?
    ensures RowAt(Recount(months, numbers), section) == RowAt(numbers, section)
  {
  }

  /** Creating the current month does not change the statistics. */
  lemma CurrentMonthKeepsStatistics(ctx: Store.Context, today: string, fetchFails: bool, numbers: seq<Number>)
    requires |today| >= 2
    ensures Recount(Store.FetchCurrentMonth(ctx, today, fetchFails).context.months, numbers) == Recount(ctx.months, numbers)
  {
    var r := Store.FetchCurrentMonth(ctx, today, fetchFails);
    if r.context != ctx {
      assert r.month == EmptyMonth(r.month.date);
      EmptyMonthCountsNothing(ctx.months, r.month.date);
    }
  }

  // ----- The snapshot across store changes -----

  /** A fresh screen can be loaded against any context. */
  lemma InitialScreenWellFormed(months: seq<Month>)
    ensures WellFormed(InitialScreen, months)
    ensures !InitialScreen.subscribed && InitialScreen.months.None?
  {
  }

  /**
   The store never removes month records, so a screen whose snapshot
   refers to records of a context still does once the context has grown;
   in particular a subscribed screen can always be called back.
   */
  lemma GrowthKeepsWellFormed(s: Screen, months: seq<Month>, later: seq<Month>)
    requires WellFormed(s, months) && |months| <= |later|
    ensures WellFormed(s, later)
    ensures s.subscribed ==> s.months.Some? && ValidRefs(s.months.value, |later|)
  {
  }

  /** Reading a snapshot of the first `n` records sees those records with their current goals. */
  lemma ResolveAllRefs(later: seq<Month>, n: nat)
    requires n <= |later|
    ensures Resolve(later, AllRefs(n)) == later[..n]
  {
    var r := Resolve(later, AllRefs(n));
    forall k | 0 <= k < n
      ensures r[k] == later[..n][k]
    {
      assert AllRefs(n)[k] == k;
    }
  }

  /** A recount after the load ignores months created after it. */
  lemma ReloadIgnoresLaterMonths(months: seq<Month>, extra: seq<Month>, numbers: seq<Number>)
    ensures Recount(Resolve(months + extra, AllRefs(|months|)), numbers) == Recount(months, numbers)
  {
    ResolveAllRefs(months + extra, |months|);
    assert (months + extra)[..|months|] == months;
  }

  /** A recount after the load counts the goals of the loaded months as they have been edited since. */
  lemma ReloadCountsEditedGoals(months: seq<Month>, p: nat, goals: seq<Goal>, numbers: seq<Number>)
    requires p < |months|
    ensures var edited := months[p := months[p].(goals := Some(goals))];
            Recount(Resolve(edited, AllRefs(|months|)), numbers) == Recount(edited, numbers)
  {
    var edited := months[p := months[p].(goals := Some(goals))];
    ResolveAllRefs(edited, |months|);
    assert edited[..|months|] == edited;
  }

  /** Getting or creating the current month after the load does not change what a recount shows. */
  lemma ReloadAfterFetchCurrentMonth(ctx: Store.Context, today: string, fetchFails: bool, numbers: seq<Number>)
    requires |today| >= 2
    ensures var later := Store.FetchCurrentMonth(ctx, today, fetchFails).context.months;
            && |ctx.months| <= |later|
            && Recount(Resolve(later, AllRefs(|ctx.months|)), numbers) == Recount(ctx.months, numbers)
  {
    var r := Store.FetchCurrentMonth(ctx, today, fetchFails);
    if r.context == ctx {
      ReloadIgnoresLaterMonths(ctx.months, [], numbers);
      assert ctx.months + [] == ctx.months;
    } else {
      ReloadIgnoresLaterMonths(ctx.months, [r.month], numbers);
    }
  }

  /** A single goal is counted as completed or as uncompleted. */
  lemma OneGoalTally(g: Goal)
    ensures GoalsTally([g]) == if IsCompleted(g) then Tally(1, 0, 1) else Tally(0, 1, 1)
  {
    assert CompletedUpTo([g], 1) == CompletedUpTo([g], 0) + (if IsCompleted([g][0]) then 1 else 0);
  }

  /** A month holding a single goal counts that goal as completed or uncompleted. */
  lemma OneGoalMonth(key: string, g: Goal)
    ensures MonthsTally([Month(key, Some([g]))]) == Some(if IsCompleted(g) then Tally(1, 0, 1) else Tally(0, 1, 1))
  {
    var ms := [Month(key, Some([g]))];
    OneGoalTally(g);
    assert ms[..0] == [];
    assert AllGoals(ms) == [g];
  }

  /**
   A goal of a loaded month that reaches its aim after the load is shown
   as completed by the next recount: one goal at 0 of `aim` gives one
   uncompleted goal, and the same record edited to `aim` of `aim` gives one
   completed goal.
   */
  lemma EditedGoalShowsCompleted(key: string, title: string, aim: int, numbers: seq<Number>)
    requires aim > 0
    ensures var before := [Month(key, Some([Goal(title, 0, aim)]))];
            var after := before[0 := Month(key, Some([Goal(title, aim, aim)]))];
            && Recount(before, numbers)[1..] == [Whole(0), Whole(1), Whole(1)]
            && Recount(Resolve(after, AllRefs(|before|)), numbers)[1..] == [Whole(1), Whole(0), Whole(1)]
  {
    var before := [Month(key, Some([Goal(title, 0, aim)]))];
    var after := before[0 := Month(key, Some([Goal(title, aim, aim)]))];
    OneGoalMonth(key, Goal(title, 0, aim));
    OneGoalMonth(key, Goal(title, aim, aim));
    assert after == [Month(key, Some([Goal(title, aim, aim)]))];
    ResolveAllRefs(after, 1);
    assert after[..1] == after;
  }
}

=== FILE: summary_view.dfy ===
/**
 The statistics screen of the Summary module: it shows summaries computed
 elsewhere, in an order given by a list of cell kinds, and asks for fresh
 data whenever the store reports a change.
 */
module SummaryView {
  import opened Wrappers
  import opened Entities

  /** The kinds of statistic a section can show; each names an index into the summaries. */
  datatype SummaryCell = PercentOfSetGoals | CompletedGoals | UncompletedGoals | AllGoals {
    function RawValue(): nat {
      match this
      case PercentOfSetGoals => 0
      case CompletedGoals => 1
      case UncompletedGoals => 2
      case AllGoals => 3
    }
  }

  /** The selection shown unless the user changes it. */
  function DefaultCells(): seq<SummaryCell> {
    [PercentOfSetGoals, CompletedGoals, UncompletedGoals, AllGoals]
  }

  /** The view's state: the selected cell kinds and the summaries last handed to it. */
  datatype View = View(cells: seq<SummaryCell>, summaries: seq<Summary>)

  /** A freshly created view: the default selection and no summaries yet. */
  function InitialView(): (v: View)
    ensures |v.cells| == 4 && v.summaries == []
    ensures forall k :: 0 <= k < |v.cells| ==> v.cells[k].RawValue() == k
  {
    View(DefaultCells(), [])
  }

  /** The presenter hands over new summaries. */
  function SetData(v: View, summaries: seq<Summary>): (r: View)
    ensures r.cells == v.cells
    ensures r.summaries == summaries && NumberOfSections(r) == |summaries|
  {
    v.(summaries := summaries)
  }

  /** One section per summary. */
  function NumberOfSections(v: View): nat {
    |v.summaries|
  }

  /** One row in every section. */
  function NumberOfRows(v: View, section: nat): nat {
    1
  }

  /**
   The summary displayed in section `section`: the summary indexed by the
   raw value of the section's cell kind; `None` where the array
   subscripts in `cellForRowAt` would fault.
   */
  function CellForRow(v: View, section: nat): (r: Option<Summary>)
    ensures r.Some? <==> section < |v.cells| && v.cells[section].RawValue() < |v.summaries|
    ensures r.Some? ==> r.value == v.summaries[v.cells[section].RawValue()]
  {
    if section < |v.cells| && v.cells[section].RawValue() < |v.summaries| then
      Some(v.summaries[v.cells[section].RawValue()])
    else None
  }

  /** Every section the table asks for can be rendered. */
  predicate AllSectionsRender(v: View) {
    forall s :: 0 <= s < NumberOfSections(v) ==> CellForRow(v, s).Some?
  }

  /** Events the view reacts to. */
  datatype Event = DidLoad | DataArrived(summaries: seq<Summary>) | StoreChanged

  /** Requests the view makes of its presenter. */
  datatype Request = FetchData

  /** The view after an event, and the requests the event made. */
  datatype Step = Step(view: View, requests: seq<Request>)

  function Handle(v: View, e: Event): (r: Step)
    ensures r.view.cells == v.cells
    ensures e.DataArrived? ==> r.view.summaries == e.summaries && r.requests == []
    ensures !e.DataArrived? ==> r.view == v && r.requests == [FetchData]
  {
    match e
    case DidLoad => Step(v, [FetchData])
    case DataArrived(s) => Step(SetData(v, s), [])
    case StoreChanged => Step(v, [FetchData])
  }

  /** The view after a sequence of events. */
  function Run(v: View, events: seq<Event>): View
    decreases |events|
  {
    if |events| == 0 then v
    else Handle(Run(v, events[..|events| - 1]), events[|events| - 1]).view
  }

  /** The summaries of the last data event, or `fallback` when there was none. */
  function LastData(events: seq<Event>, fallback: seq<Summary>): seq<Summary>
    decreases |events|
  {
    if |events| == 0 then fallback
    else if events[|events| - 1].DataArrived? then events[|events| - 1].summaries
    else LastData(events[..|events| - 1], fallback)
  }

  // ----- Properties -----

  /** Setting data replaces the summaries wholesale: only the last call counts. */
  lemma SetDataReplaces(v: View, a: seq<Summary>, b: seq<Summary>)
    ensures SetData(SetData(v, a), b) == SetData(v, b)
    ensures NumberOfSections(SetData(v, b)) == |b|
  {
  }

  /**
   After any sequence of events the selection is unchanged and the view
   shows exactly the summaries of the last data event; store changes never
   patch the summaries locally.
   */
  lemma {:induction false} RunShowsLastData(v: View, events: seq<Event>)
    ensures Run(v, events).cells == v.cells
    ensures Run(v, events).summaries == LastData(events, v.summaries)
    decreases |events|
  {
    if |events| > 0 {
      RunShowsLastData(v, events[..|events| - 1]);
    }
  }

  /** The table has one section and one row per summary. */
  lemma TableShowsOneRowPerSummary(v: View)
    ensures NumberOfSections(v) == |v.summaries|
    ensures forall s :: 0 <= s < NumberOfSections(v) ==> NumberOfRows(v, s) == 1
  {
  }

  /**
   Every section renders exactly when there are no more summaries than
   selected cells and each of the first |summaries| cells indexes a
   summary that exists.
   */
  lemma AllSectionsRenderIff(v: View)
    ensures AllSectionsRender(v) <==>
              |v.summaries| <= |v.cells| && forall s :: 0 <= s < |v.summaries| ==> v.cells[s].RawValue() < |v.summaries|
  {
    if |v.summaries| > |v.cells| {
      assert CellForRow(v, |v.cells|).None?;
    } else if AllSectionsRender(v) {
      forall s | 0 <= s < |v.summaries|
        ensures v.cells[s].RawValue() < |v.summaries|
      {
        assert CellForRow(v, s).Some?;
      }
    }
  }

  /**
   With the default selection, section `s` shows the `s`-th summary, and
   every section renders exactly when at most four summaries are given.
   */
  lemma DefaultSelectionIsIdentity(summaries: seq<Summary>)
    ensures var v := SetData(InitialView(), summaries);
            && (forall s :: 0 <= s < |summaries| && s < 4 ==> CellForRow(v, s) == Some(summaries[s]))
            && (AllSectionsRender(v) <==> |summaries| <= 4)
  {
    var v := SetData(InitialView(), summaries);
    AllSectionsRenderIff(v);
    if |summaries| <= 4 {
      assert forall s :: 0 <= s < |summaries| ==> v.cells[s].RawValue() == s;
    }
  }
}

=== FILE: wrappers.dfy ===
/** An optional value: the model's stand-in for Swift optionals and `try?`. */
module Wrappers {

  datatype Option<+T> = None | Some(value: T)
}
